=== FILE: README.md ===
# ezbiu data-access consistency rules, in Dafny

The ezbiu bill-splitting app keeps each group's data in a hosted backend. The group's row,
with its members and categories, lives in a view named `group_<id>`. Its bills live in a
view named `bill_<id>`. Most operations of the API client in `src/apis/supabase.ts`
follow one pattern: read the group and/or its bills, apply a check or a transformation in
memory, and write the result back. `createBill` and `updateBill` read nothing; they check
the bill before writing it. This project models those checks and transformations
as pure functions over immutable records and proves what they guarantee.

The records (module `Entities`) are:
- `Member`: id, name, bookkeeper flag `isAccounting`.
- `Category`: id, name.
- `Bill`: id, group, name, amount, per-member shares, category ids, creator, creation time.
- `Group`: id, name, payment-tracking mode, members, categories, deleted flag, update time.

The modules are:
- `Members`: the member-list edits. `AddMember` refuses a duplicate name and clears the
  other bookkeeper flags when needed. `UpdateMember` replaces by id. `RemoveMember`
  refuses while a bill still refers to the member.
- `Amounts`: `Math.round` and `isAmountValid`.
- `Categories`: the two filters behind `deleteCategory`.
- `FetchGroups`: classifying each id's fetch, and sorting the found groups by id.
- `ImportGroup`: merging the imported group with its new identity, and re-homing the
  imported bills.
- `Views`: the per-group view names.
- `ApiClient`: the operations at the level of one group's stored rows. A `Store` holds the
  group row and the bill rows. A `Faults` record says which remote reads and writes fail.
  Each operation returns a `Step`: the result it reports and the rows it leaves. With this
  model the contracts can say that a rejected operation writes nothing, and that a failed
  category cascade does not undo the group write already made.
- `Seqs`: `filter` and `includes` over sequences, with the facts the model needs about them.
- `Results`: `Option`, `Result` and the error kinds.

Modelling choices:
- `getTotalMemberAmount` is a parameter `totalOf: Shares -> real`, because its body is not
  part of this model. Nothing is assumed about it.
- Amounts are reals. `Math.round(x)` is `floor(x + 0.5)`.
- The comparison `a.id.localeCompare(b.id)` is an abstract total preorder `le` on ids.
  The sort is an insertion sort.
- `Promise.allSettled` in `fetchGroups` is modelled with results arriving in input order.
  The same id always fetches the same outcome (`fetch` is a function).
- The SDK's update-by-id writes every row with that id. Bill ids are the bill view's key,
  so `deleteCategory`'s per-bill outcomes are keyed by bill id. `createBill` takes the id
  the backend assigns, which is fresh, and `BillWritesKeepIdsUnique` shows the writes keep
  ids unique.
- `fetchGroup` selects only rows with `deleted` false, so reading a soft-deleted group
  fails like any other failed read.

## Model

| member | source | states |
|---|---|---|
| `Views.GroupView` | src/apis/supabase.ts:15 | the group view name is `group_` followed by exactly the group id |
| `Views.BillView` | src/apis/supabase.ts:16 | the bill view name is `bill_` followed by exactly the group id |
| `Views.GroupViewInjective` | src/apis/supabase.ts:15 | two groups have the same group view iff they are the same group |
| `Views.BillViewInjective` | src/apis/supabase.ts:16 | two groups have the same bill view iff they are the same group |
| `Views.ViewsDisjoint` | src/apis/supabase.ts:15-16 | no group view name is ever a bill view name |
| `Seqs.Filter` | src/apis/supabase.ts:140 | `filter` keeps exactly the entries satisfying the predicate, taken from the input, and never grows the list |
| `Seqs.FilterConcat` | src/apis/supabase.ts:140 | filtering a concatenation is the concatenation of the filtered parts, so the kept entries keep their order |
| `Seqs.FilterPartition` | src/apis/supabase.ts:263 | the kept and the rejected entries together are exactly the input, as multisets |
| `Seqs.FilterPairwise` | src/apis/supabase.ts:140 | any relation that held between every ordered pair of entries still holds after filtering |
| `Seqs.ContainsInfix` | src/apis/supabase.ts:83 | `includes` finds the marker wherever it sits in the message |
| `Members.ClearAccounting` | src/apis/supabase.ts:112 | each member keeps its place and id and name, and loses the bookkeeper flag |
| `Members.AddMember` | src/apis/supabase.ts:103-116 | fails with "member exists" iff some member has the new name; otherwise the list grows by one and the new member is last; the earlier members are unchanged, or lose their bookkeeper flag when the newcomer has it |
| `Members.AddMemberKeepsNamesUnique` | src/apis/supabase.ts:103-108 | if names were unique before, they stay unique after a successful add |
| `Members.AddMemberKeepsOneAccounting` | src/apis/supabase.ts:110-116 | at most one bookkeeper stays at most one; a newcomer who is the bookkeeper is then the only one |
| `Members.UpdateMember` | src/apis/supabase.ts:161-167 | length and order kept; the entries with the new value's id become the new value; the others keep their value, or lose their flag when the new value is the bookkeeper |
| `Members.UpdateMemberKeepsIds` | src/apis/supabase.ts:161-167 | every position keeps its member id |
| `Members.UpdateMemberKeepsOneAccounting` | src/apis/supabase.ts:161-167 | with unique ids, at most one bookkeeper stays at most one |
| `Members.UpdateMemberMakesSoleAccounting` | src/apis/supabase.ts:161-167 | with unique ids, making a present member the bookkeeper leaves exactly that member flagged |
| `Members.UpdateAbsentMemberClearsAccounting` | src/apis/supabase.ts:161-167 | flagging an id not in the list clears every flag and adds no one, so the group is left with no bookkeeper |
| `Members.UpdateDuplicateIdsFlagsTwo` | src/apis/supabase.ts:161-167 | without unique ids, flagging a shared id leaves two bookkeepers; nothing in the client keeps ids unique |
| `Members.UpdateWithSameValueIsNoOp` | src/apis/supabase.ts:161-167 | on a consistent list, writing back a member's current value changes nothing |
| `Members.UpdateMemberIdempotent` | src/apis/supabase.ts:161-167 | applying the same update twice equals applying it once |
| `Members.UpdateMemberMayDuplicateNames` | src/apis/supabase.ts:152-177 | updateMember has no duplicate-name check, so a rename can give two members the same name |
| `Members.RemoveMember` | src/apis/supabase.ts:134-140 | fails with "still referenced" iff some bill was created by the member or gives them a truthy share; otherwise the result holds exactly the members with other ids |
| `Members.ZeroShareDoesNotBlockRemoval` | src/apis/supabase.ts:134 | a share of 0 is falsy and does not block removal |
| `Members.RemoveMemberKeepsOrder` | src/apis/supabase.ts:140 | removal from a concatenation is the concatenation of the removals, so order is kept |
| `Members.RemoveAbsentMember` | src/apis/supabase.ts:140 | removing an id nobody has returns the list unchanged |
| `Members.RemoveMemberDropsExactlyMatches` | src/apis/supabase.ts:140 | the result plus the entries with the removed id are exactly the old list, as multisets |
| `Members.RemoveMemberKeepsInvariants` | src/apis/supabase.ts:140 | unique names, unique ids and at most one bookkeeper all survive a removal |
| `Amounts.Round` | src/apis/supabase.ts:183 | the result is the integer within one half below or strictly less than one half above the input |
| `Amounts.RoundUnique` | src/apis/supabase.ts:183 | any integer meeting that bound is the rounded value |
| `Amounts.IsAmountValid` | src/apis/supabase.ts:180-189 | returns true iff the amount is present and non-zero and rounds like the shares' total (an absent share map counts as empty); otherwise fails with "amount mismatch" |
| `Amounts.ExactTotalAccepted` | src/apis/supabase.ts:180-189 | a non-zero amount equal to the shares' total is accepted |
| `Amounts.FarTotalRejected` | src/apis/supabase.ts:180-189 | an amount a whole unit or more from the total is rejected |
| `Amounts.AcceptedIsClose` | src/apis/supabase.ts:180-189 | an accepted amount lies strictly within one unit of the total |
| `Amounts.ZeroAmountRejected` | src/apis/supabase.ts:182 | a zero amount is rejected whatever the shares |
| `Categories.RemainingCategories` | src/apis/supabase.ts:263 | the new category list holds exactly the old categories with other ids, and never grows |
| `Categories.StripCategory` | src/apis/supabase.ts:278 | the bill no longer lists the id, keeps every other id it listed, gains none, and keeps every other field |
| `Categories.StripUnreferencedIsNoOp` | src/apis/supabase.ts:273-279 | a bill that does not list the category is left as it was |
| `Categories.StripKeepsOrder` | src/apis/supabase.ts:278 | stripping keeps the remaining ids in order |
| `Categories.RemainingKeepsOrder` | src/apis/supabase.ts:263 | the remaining categories keep their order |
| `Categories.RemainingAbsentIsNoOp` | src/apis/supabase.ts:263 | deleting an id no category has leaves the list unchanged |
| `Categories.RemainingDropsExactlyMatches` | src/apis/supabase.ts:263 | exactly the categories with the deleted id leave the list |
| `Categories.StripDropsExactlyMatches` | src/apis/supabase.ts:278 | exactly the occurrences of the deleted id leave the bill's list |
| `FetchGroups.SortById` | src/apis/supabase.ts:90 | the result is sorted by id under the comparison and is a permutation of the input |
| `FetchGroups.Insert` | src/apis/supabase.ts:90 | inserting into a sorted list keeps it sorted and adds exactly the one group |
| `FetchGroups.Settle` | src/apis/supabase.ts:76-88 | a group is collected iff some id fetched it; an id is reported not found iff it was requested and failed with a message containing "does not exist"; the two lists together are no longer than the ids |
| `FetchGroups.FetchGroups` | src/apis/supabase.ts:67-91 | the returned groups are sorted by id and are exactly the collected ones; the not-found ids are exactly those whose failure mentions "does not exist" |
| `FetchGroups.SettleGroupsFollowIds` | src/apis/supabase.ts:77-81 | the collected groups are, in input order and once per occurrence, exactly the groups fetched by the ids whose fetch found one |
| `FetchGroups.SettleNotFoundFollowIds` | src/apis/supabase.ts:82-86 | the not-found ids are exactly the ids whose failure mentions "does not exist", in input order and once per occurrence |
| `FetchGroups.SettleAccountsForEveryId` | src/apis/supabase.ts:76-88 | each id lands in exactly one place: the groups, the not-found ids, or the dropped ids, those whose fetch failed with another error |
| `FetchGroups.FetchGroupsLosesOnlyDropped` | src/apis/supabase.ts:76-90 | the two lists together are as long as the ids less the ids whose fetch failed with another error |
| `FetchGroups.NoDropsIff` | src/apis/supabase.ts:82-86 | no id is dropped iff no fetch failed with an error other than "does not exist" |
| `ImportGroup.MergeGroup` | src/apis/supabase.ts:306 | the new group takes id, name and mode from the new identity and everything else from the imported group |
| `ImportGroup.Rehome` | src/apis/supabase.ts:309-312 | the payload belongs to the new group, and given back the bill's id it is the bill moved to the new group |
| `ImportGroup.RemapBills` | src/apis/supabase.ts:308-312 | the number of bills is kept, each payload belongs to the new group, and each is its bill with only the id dropped and the group replaced |
| `ImportGroup.RehomeForgetsOrigin` | src/apis/supabase.ts:310 | the payload does not depend on the bill's old id or old group |
| `ImportGroup.RemapKeepsAmounts` | src/apis/supabase.ts:309-312 | re-homing never changes whether a bill passes the amount check |
| `ApiClient.AddMemberOp` | src/apis/supabase.ts:94-122 | a failed read, or a soft-deleted group, reports "cannot join"; succeeds iff the read and write succeed and the name is free; on failure nothing is written; on success only the member list changes, to AddMember's result |
| `ApiClient.RemoveMemberOp` | src/apis/supabase.ts:124-150 | a failed read of the group or the bills, or a soft-deleted group, reports "cannot remove"; succeeds iff both reads and the write succeed and no bill refers to the member; on failure nothing is written |
| `ApiClient.UpdateMemberOp` | src/apis/supabase.ts:152-177 | a failed read, or a soft-deleted group, reports "cannot update"; succeeds iff the read and the write succeed; on failure nothing is written |
| `ApiClient.DeletedGroupRejectsEdits` | src/apis/supabase.ts:32-39 | on a soft-deleted group, addMember, removeMember, updateMember and (with bill ids unique) deleteCategory each fail with their read error and write nothing |
| `ApiClient.RemoveMemberKeepsReferencesResolved` | src/apis/supabase.ts:134-140 | if every member a bill refers to is in the group, that stays true after removeMember |
| `ApiClient.AddMemberKeepsReferencesResolved` | src/apis/supabase.ts:110-116 | if every member a bill refers to is in the group, that stays true after addMember |
| `ApiClient.UpdateMemberKeepsReferencesResolved` | src/apis/supabase.ts:161-167 | if every member a bill refers to is in the group, that stays true after updateMember |
| `ApiClient.MemberAddRemoveKeepConsistent` | src/apis/supabase.ts:103-140 | addMember and removeMember keep names unique and at most one bookkeeper |
| `ApiClient.CreateBillOp` | src/apis/supabase.ts:199-207 | for a bill of this group with a fresh id: an amount mismatch fails with nothing written; succeeds iff the check and the insert succeed, and then appends exactly the bill |
| `ApiClient.ApplyBillUpdate` | src/apis/supabase.ts:211-214 | a row with the updated id takes every field of the update but keeps its creation time; other rows are untouched |
| `ApiClient.UpdateBillOp` | src/apis/supabase.ts:209-220 | for a bill of this group: an amount mismatch fails with nothing written; on success the group is unchanged and each bill row is updated by id |
| `ApiClient.BillWritesKeepAmountsConsistent` | src/apis/supabase.ts:199-220 | if every stored bill passes the amount check, that stays true after createBill of a new bill and after updateBill of any bill of the group, including one that rewrites a stored row |
| `ApiClient.BillWritesKeepIdsUnique` | src/apis/supabase.ts:199-220 | createBill and updateBill keep bill ids unique |
| `ApiClient.DeleteCategoryOp` | src/apis/supabase.ts:252-294 | with bill ids unique: a failed read, a soft-deleted group or a failed group write fails with nothing written; otherwise the category leaves the group even if a bill update fails; bills that do not list it, or whose update failed, are untouched; the others are stripped; succeeds iff no listing bill's update failed |
| `ApiClient.DeleteCategoryCascades` | src/apis/supabase.ts:262-291 | after a successful deletion no category has the id, no bill lists it, and every category id a bill lists still names a group category |
| `ApiClient.StripResolves` | src/apis/supabase.ts:263-278 | after stripping, every id a bill still lists names a remaining category |
| `ApiClient.DeleteCategoryNotRolledBack` | src/apis/supabase.ts:265-290 | when a bill update fails, the operation reports it while the category is already gone from the group and that bill still lists it |
| `ApiClient.DeleteCategoryExample` | src/apis/supabase.ts:263-279 | in a live group with categories [A, B] and two bills with distinct ids listing [A, B] and [A], deleting A leaves [B], [B] and [] |

## Left out

- Remote calls. The SDK's insert, update, select and delete calls and the
  `create_group_view`, `create_bill_view` and `mark_bills_as_paid` procedures run on the
  server. `fetchGroup` and `fetchBills` are modelled only by their outcome, and so are the
  writes of the modelled operations: in `ApiClient` that outcome is the `Faults` record.
- The client construction (`createClient` at src/apis/supabase.ts:13). It runs in the
  client, but it only reads configuration and holds no logic of its own.
- Unmodelled operations. `createGroup`, `updateGroup`, `deleteGroup`, `deleteBill` and
  `markBillsAsPaid` (src/apis/supabase.ts:19-30, 52-65, 222-250) are not modelled at all.
  Each consists only of remote writes or procedure calls, with no client-side check.
- `updateGroupUpdatedAt` touches. They write a clock value. Most are fire-and-forget and
  their failures are swallowed. The exception is `importGroup`, which awaits the touch
  (src/apis/supabase.ts:325), so a failure there reaches the caller. Since the import's
  remote steps are not modelled, this failure path is not modelled either.
- `importGroup`'s `retryOnFailure`. It is about timing (10 attempts, 500 ms apart) and its
  body is not part of this model. So the import's insert step and its retry behaviour are
  not modelled; only the payload it inserts is.
- Concurrency, within fetchGroups. The order in which `Promise.allSettled` settles is fixed
  to the input order. The group list is sorted afterwards, so within fetchGroups only the
  order of `notFoundIds` depends on this.
- Concurrency, between clients. Each `ApiClient` operation is one atomic step on one
  `Store` snapshot: no other write lands between its reads and its writes. In the source
  the reads and the writes are separate remote calls with no transaction. removeMember
  reads the bills (src/apis/supabase.ts:128) before it writes the members (142-145), so a
  bill created in between by another client can name the removed member. deleteCategory
  reads the bills (256) before stripping them (279), so a category added to a bill in
  between is never stripped, and a concurrent edit to a bill's other category ids is
  overwritten. So RemoveMemberKeepsReferencesResolved, DeleteCategoryCascades and the other
  invariant lemmas in `ApiClient` hold only when one client writes at a time.
- `getTotalMemberAmount`. Its body is not part of this model, so it is the parameter
  `totalOf`.
- Floating point. Amounts are exact reals; IEEE rounding and `NaN` are not modelled.
- `localeCompare`. It is an abstract total preorder on ids.
- `createErrorLog` and `newRealtimeClient`. They depend on the browser environment and the
  realtime transport.
- Absent lists. The entity types file is not part of this model. Optional-chained absent
  lists (`group.members?`, `group.categories?`, `bill.categoryIds?`) are not modelled:
  these lists are always present.
- Non-logic files. `src/apis/api-client.ts` and `src/apis/realtime-client.ts` hold only
  types. The hooks are UI framework glue, `src/constants/key.ts` holds constants and
  `vite.config.ts` is build configuration.
- Paid state. `Bill` leaves out the per-member paid state that `markBillsAsPaid` sets. So
  "keeps every other field" in `StripCategory`, `Rehome` and `RemapBills` covers only the
  fields modelled.
- CreateBillOp: requires the bill's `groupId` to be this store's group. The source writes
  to the bill view named by the bill's own `groupId` (src/apis/supabase.ts:201). A bill for
  another group goes to that group's rows, which one store does not hold. It also requires
  a fresh id, because the backend assigns the id.
- UpdateBillOp: requires `updated.groupId` to be this store's group, for the same reason
  (src/apis/supabase.ts:212).
- BillWritesKeepAmountsConsistent: inherits CreateBillOp's requirements for the created
  bill (this store's group, a fresh id) and UpdateBillOp's for the updated one (this
  store's group). The updated bill may carry any id, including that of a stored bill.
- DeleteCategoryOp: requires bill ids to be unique, as they are the bill view's key. The
  source updates each listing bill with `.eq('id', bill.id)` (src/apis/supabase.ts:279),
  and the per-row result is only its own stripped list when no other row shares the id.
  With duplicate ids the concurrent updates would race, and their order is not modelled.
  DeleteCategoryCascades, DeleteCategoryNotRolledBack and the deleteCategory clause of
  DeletedGroupRejectsEdits carry the same requirement.

=== FILE: amounts.dfy ===
/** Bill-amount validation (isAmountValid), run by createBill and updateBill before any write.
    The total of the members' shares comes from a helper whose body is not part of this
    model, so it is a parameter `totalOf`. */
module Amounts {
  import opened Results
  import opened Entities

  /** `Math.round` on a real: the nearest integer, halves rounded up. */
  function Round(x: real): (r: int)
    ensures r as real - 0.5 <= x < r as real + 0.5
  {
    (x + 0.5).Floor
  }

  /** Only one integer satisfies Round's contract, so the contract pins it down. */
  lemma RoundUnique(x: real, n: int)
    requires n as real - 0.5 <= x < n as real + 0.5
    ensures Round(x) == n
  {
  }

  /** isAmountValid: the amount must be present and non-zero, and must round to the same
      integer as the total of the shares (an absent share map counts as empty); otherwise
      it throws. */
  function IsAmountValid(
    amount: Option<real>, shares: Option<Shares>, totalOf: Shares -> real): (r: Result<bool>)
    ensures r.Ok? <==> amount.Some? && amount.value != 0.0
                       && Round(amount.value) == Round(totalOf(shares.GetOr(map[])))
    ensures r.Ok? ==> r.value
    ensures r.Err? ==> r.error == AmountMismatch
  {
    if amount.None? || amount.value == 0.0
       || Round(amount.value) != Round(totalOf(shares.GetOr(map[])))
    then Err(AmountMismatch)
    else Ok(true)
  }

  /** The check applied to a whole bill. */
  predicate BillAmountValid(bill: Bill, totalOf: Shares -> real) {
    IsAmountValid(Some(bill.amount), Some(bill.members), totalOf).Ok?
  }

  /** A non-zero amount equal to the shares' total is always accepted. */
  lemma ExactTotalAccepted(amount: real, shares: Shares, totalOf: Shares -> real)
    requires amount != 0.0 && totalOf(shares) == amount
    ensures IsAmountValid(Some(amount), Some(shares), totalOf) == Ok(true)
  {
  }

  /** Amounts a whole unit or more away from the total are always rejected. */
  lemma FarTotalRejected(amount: real, shares: Shares, totalOf: Shares -> real)
    requires amount - totalOf(shares) >= 1.0 || totalOf(shares) - amount >= 1.0
    ensures IsAmountValid(Some(amount), Some(shares), totalOf) == Err(AmountMismatch)
  {
  }

  /** Accepted amounts lie within one unit of the total. */
  lemma AcceptedIsClose(amount: Option<real>, shares: Option<Shares>, totalOf: Shares -> real)
    requires IsAmountValid(amount, shares, totalOf).Ok?
    ensures -1.0 < amount.value - totalOf(shares.GetOr(map[])) < 1.0
  {
  }

  /** A zero amount is rejected even when nobody owes anything. */
  lemma ZeroAmountRejected(shares: Option<Shares>, totalOf: Shares -> real)
    ensures IsAmountValid(Some(0.0), shares, totalOf) == Err(AmountMismatch)
  {
  }
}

=== FILE: api_client.dfy ===
/** The client's API operations over what the backend holds for one group. The member and
    category operations read the group row and/or its bill rows, apply the pure
    transformation or check, and write back; the bill operations check the bill and write
    it. The remote calls are replaced by a `Faults` record saying which of them fail, and
    the operation returns its result together with the backend state afterwards. */
module ApiClient {
  import opened Results
  import opened Entities
  import opened Members
  import opened Amounts
  import opened Categories

  /** One group's rows: its row in the group view and its rows in the bill view. Bill ids
      are the bill view's key. */
  datatype Store = Store(group: Group, bills: seq<Bill>)

  /** Which remote calls fail during one operation. */
  datatype Faults = Faults(
    groupRead: bool,                 // fetchGroup throws
    billsRead: bool,                 // fetchBills throws
    groupWrite: Option<string>,      // the update of the group row returns this error
    billWrite: Option<string>,       // the insert or update of a bill row returns this error
    failedBillUpdates: set<BillId>)  // deleteCategory's per-bill updates that reject or error

  const NoFaults: Faults := Faults(false, false, None, None, {})

  /** The result an operation reports and the backend state it leaves. */
  datatype Step = Step(result: Result<()>, after: Store)

  /** fetchGroup selects the row only when it is not soft-deleted (`.eq('deleted', false)`
      with `.single()`), so reading a deleted group throws like any failed read. */
  predicate GroupUnreadable(s: Store, f: Faults) {
    f.groupRead || s.group.deleted
  }

  /** Writes a new member list to the group row. */
  function WriteMembers(s: Store, f: Faults, members: seq<Member>): Step {
    if f.groupWrite.Some? then Step(Err(Remote(f.groupWrite.value)), s)
    else Step(Ok(()), s.(group := s.group.(members := members)))
  }

  // ---- members ---------------------------------------------------------------------

  /** addMember. */
  function AddMemberOp(s: Store, f: Faults, member: Member): (r: Step)
    ensures GroupUnreadable(s, f) ==> r.result == Err(CannotJoinGroup)
    ensures !GroupUnreadable(s, f) && NameTaken(s.group.members, member.name) ==>
              r.result == Err(MemberNameTaken)
    ensures r.result.Ok? <==>
              && !GroupUnreadable(s, f)
              && !NameTaken(s.group.members, member.name)
              && f.groupWrite.None?
    ensures r.result.Err? ==> r.after == s
    ensures r.result.Ok? ==>
              r.after == s.(group := s.group.(members := AddMember(s.group.members, member).value))
  {
    if GroupUnreadable(s, f) then Step(Err(CannotJoinGroup), s)
    else
      match AddMember(s.group.members, member)
      case Err(e) => Step(Err(e), s)
      case Ok(members) => WriteMembers(s, f, members)
  }

  /** removeMember. */
  function RemoveMemberOp(s: Store, f: Faults, memberId: MemberId): (r: Step)
    ensures GroupUnreadable(s, f) || f.billsRead ==> r.result == Err(CannotRemoveMember)
    ensures !GroupUnreadable(s, f) && !f.billsRead && Referenced(s.bills, memberId) ==>
              r.result == Err(MemberStillReferenced)
    ensures r.result.Ok? <==>
              && !GroupUnreadable(s, f) && !f.billsRead
              && !Referenced(s.bills, memberId) && f.groupWrite.None?
    ensures r.result.Err? ==> r.after == s
    ensures r.result.Ok? ==>
              var members := RemoveMember(s.group.members, s.bills, memberId).value;
              r.after == s.(group := s.group.(members := members))
  {
    if GroupUnreadable(s, f) || f.billsRead then Step(Err(CannotRemoveMember), s)
    else
      match RemoveMember(s.group.members, s.bills, memberId)
      case Err(e) => Step(Err(e), s)
      case Ok(members) => WriteMembers(s, f, members)
  }

  /** updateMember. */
  function UpdateMemberOp(s: Store, f: Faults, newValue: Member): (r: Step)
    ensures GroupUnreadable(s, f) ==> r.result == Err(CannotUpdateMember)
    ensures r.result.Ok? <==> !GroupUnreadable(s, f) && f.groupWrite.None?
    ensures r.result.Err? ==> r.after == s
    ensures r.result.Ok? ==>
              r.after == s.(group := s.group.(members := UpdateMember(s.group.members, newValue)))
  {
    if GroupUnreadable(s, f) then Step(Err(CannotUpdateMember), s)
    else WriteMembers(s, f, UpdateMember(s.group.members, newValue))
  }

  /** A soft-deleted group cannot be read, so every operation that starts by reading it
      fails with its read error and writes nothing. */
  lemma DeletedGroupRejectsEdits(
    s: Store, f: Faults, member: Member, memberId: MemberId, categoryId: CategoryId)
    requires s.group.deleted
    ensures AddMemberOp(s, f, member) == Step(Err(CannotJoinGroup), s)
    ensures RemoveMemberOp(s, f, memberId) == Step(Err(CannotRemoveMember), s)
    ensures UpdateMemberOp(s, f, member) == Step(Err(CannotUpdateMember), s)
    ensures UniqueBillIds(s) ==>
              DeleteCategoryOp(s, f, categoryId) == Step(Err(CannotDeleteCategory), s)
  {
  }

  /** Every member a bill refers to (as creator or through a truthy share) is in the group. */
  ghost predicate ReferencesResolve(s: Store) {
    forall i, id :: 0 <= i < |s.bills| && ReferencedBy(s.bills[i], id) ==>
      exists j :: 0 <= j < |s.group.members| && s.group.members[j].id == id
  }

  /** removeMember never leaves a bill pointing at a member who is gone. */
  lemma RemoveMemberKeepsReferencesResolved(s: Store, f: Faults, memberId: MemberId)
    requires ReferencesResolve(s)
    ensures ReferencesResolve(RemoveMemberOp(s, f, memberId).after)
  {
  }

  /** addMember only appends and clears flags, so every member id stays and bills keep
      resolving. */
  lemma AddMemberKeepsReferencesResolved(s: Store, f: Faults, member: Member)
    requires ReferencesResolve(s)
    ensures ReferencesResolve(AddMemberOp(s, f, member).after)
  {
  }

  /** updateMember keeps every member id in place, so bills keep resolving. */
  lemma UpdateMemberKeepsReferencesResolved(s: Store, f: Faults, newValue: Member)
    requires ReferencesResolve(s)
    ensures ReferencesResolve(UpdateMemberOp(s, f, newValue).after)
  {
  }

  /** The member list's own invariants: unique names and at most one bookkeeper. */
  ghost predicate MembersConsistent(s: Store) {
    UniqueNames(s.group.members) && AtMostOneAccounting(s.group.members)
  }

  /** addMember and removeMember keep the member list consistent. */
  lemma MemberAddRemoveKeepConsistent(s: Store, f: Faults, member: Member, memberId: MemberId)
    requires MembersConsistent(s)
    ensures MembersConsistent(AddMemberOp(s, f, member).after)
    ensures MembersConsistent(RemoveMemberOp(s, f, memberId).after)
  {
    if AddMemberOp(s, f, member).result.Ok? {
      AddMemberKeepsNamesUnique(s.group.members, member);
      AddMemberKeepsOneAccounting(s.group.members, member);
    }
    if RemoveMemberOp(s, f, memberId).result.Ok? {
      RemoveMemberKeepsInvariants(s.group.members, s.bills, memberId);
    }
  }

  // ---- bills -----------------------------------------------------------------------

  /** Every stored bill passes the amount check. */
  ghost predicate AmountsConsistent(s: Store, totalOf: Shares -> real) {
    forall i :: 0 <= i < |s.bills| ==> BillAmountValid(s.bills[i], totalOf)
  }

  /** No stored bill has this id: the backend assigns new bills a fresh key. */
  predicate FreshBillId(s: Store, id: BillId) {
    forall i :: 0 <= i < |s.bills| ==> s.bills[i].id != id
  }

  /** Bill ids are the bill view's key. */
  ghost predicate UniqueBillIds(s: Store) {
    forall i, j :: 0 <= i < j < |s.bills| ==> s.bills[i].id != s.bills[j].id
  }

  /** createBill: `bill` is the row as the backend stores it, with the id and creation time
      it assigns. Nothing is written unless the amount check passes. */
  function CreateBillOp(s: Store, f: Faults, bill: Bill, totalOf: Shares -> real): (r: Step)
    requires bill.groupId == s.group.id
    requires FreshBillId(s, bill.id)
    ensures !BillAmountValid(bill, totalOf) ==> r == Step(Err(AmountMismatch), s)
    ensures r.result.Ok? <==> BillAmountValid(bill, totalOf) && f.billWrite.None?
    ensures r.result.Err? ==> r.after == s
    ensures r.result.Ok? ==> r.after == s.(bills := s.bills + [bill])
  {
    if IsAmountValid(Some(bill.amount), Some(bill.members), totalOf).Err? then
      Step(Err(AmountMismatch), s)
    else if f.billWrite.Some? then Step(Err(Remote(f.billWrite.value)), s)
    else Step(Ok(()), s.(bills := s.bills + [bill]))
  }

  /** The row after `update(updated).eq('id', updated.id)`: a row with that id takes every
      field of `updated` except its creation time; any other row is untouched. */
  function ApplyBillUpdate(row: Bill, updated: Bill): (r: Bill)
    ensures row.id != updated.id ==> r == row
    ensures row.id == updated.id ==>
              r.createdAt == row.createdAt && r.(createdAt := updated.createdAt) == updated
  {
    if row.id == updated.id then updated.(createdAt := row.createdAt) else row
  }

  /** updateBill: nothing is written unless the amount check passes. */
  function UpdateBillOp(s: Store, f: Faults, updated: Bill, totalOf: Shares -> real): (r: Step)
    requires updated.groupId == s.group.id
    ensures !BillAmountValid(updated, totalOf) ==> r == Step(Err(AmountMismatch), s)
    ensures r.result.Ok? <==> BillAmountValid(updated, totalOf) && f.billWrite.None?
    ensures r.result.Err? ==> r.after == s
    ensures r.result.Ok? ==> r.after.group == s.group && |r.after.bills| == |s.bills|
    ensures r.result.Ok? ==>
              forall i :: 0 <= i < |s.bills| ==>
                r.after.bills[i] == ApplyBillUpdate(s.bills[i], updated)
  {
    if IsAmountValid(Some(updated.amount), Some(updated.members), totalOf).Err? then
      Step(Err(AmountMismatch), s)
    else if f.billWrite.Some? then Step(Err(Remote(f.billWrite.value)), s)
    else
      var bills :=
        seq(|s.bills|, i requires 0 <= i < |s.bills| => ApplyBillUpdate(s.bills[i], updated));
      Step(Ok(()), s.(bills := bills))
  }

  /** createBill and updateBill only ever store bills that pass the amount check. */
  lemma BillWritesKeepAmountsConsistent(
    s: Store, f: Faults, bill: Bill, updated: Bill, totalOf: Shares -> real)
    requires bill.groupId == s.group.id && FreshBillId(s, bill.id)
    requires updated.groupId == s.group.id
    requires AmountsConsistent(s, totalOf)
    ensures AmountsConsistent(CreateBillOp(s, f, bill, totalOf).after, totalOf)
    ensures AmountsConsistent(UpdateBillOp(s, f, updated, totalOf).after, totalOf)
  {
  }

  /** createBill and updateBill keep bill ids unique, so the id stays the rows' key. */
  lemma BillWritesKeepIdsUnique(
    s: Store, f: Faults, bill: Bill, updated: Bill, totalOf: Shares -> real)
    requires bill.groupId == s.group.id && FreshBillId(s, bill.id)
    requires updated.groupId == s.group.id
    requires UniqueBillIds(s)
    ensures UniqueBillIds(CreateBillOp(s, f, bill, totalOf).after)
    ensures UniqueBillIds(UpdateBillOp(s, f, updated, totalOf).after)
  {
    var after := UpdateBillOp(s, f, updated, totalOf).after.bills;
    forall i, j | 0 <= i < j < |after|
      ensures after[i].id != after[j].id
    {
      assert after[i].id == s.bills[i].id && after[j].id == s.bills[j].id;
    }
  }

  // ---- categories ------------------------------------------------------------------

  /** One bill after the cascade: stripped when it references the category and its update
      went through, otherwise as it was. */
  function CascadeBill(bill: Bill, f: Faults, categoryId: CategoryId): Bill {
    if ReferencesCategory(bill, categoryId) && bill.id !in f.failedBillUpdates
    then StripCategory(bill, categoryId) else bill
  }

  /** Some bill that references the category could not be updated. */
  predicate CascadeFailed(bills: seq<Bill>, f: Faults, categoryId: CategoryId) {
    exists i :: 0 <= i < |bills| &&
      ReferencesCategory(bills[i], categoryId) && bills[i].id in f.failedBillUpdates
  }

  /** deleteCategory: the group row is written first, then the referencing bills; a failed
      bill update fails the operation but nothing already written is undone. Each bill is
      updated by id, which reaches exactly its own row because bill ids are the key. */
  function DeleteCategoryOp(s: Store, f: Faults, categoryId: CategoryId): (r: Step)
    requires UniqueBillIds(s)
    ensures GroupUnreadable(s, f) || f.billsRead ==> r == Step(Err(CannotDeleteCategory), s)
    ensures !GroupUnreadable(s, f) && !f.billsRead && f.groupWrite.Some? ==>
              r == Step(Err(Remote(f.groupWrite.value)), s)
    ensures r.result.Ok? <==>
              && !GroupUnreadable(s, f) && !f.billsRead && f.groupWrite.None?
              && !CascadeFailed(s.bills, f, categoryId)
    ensures !GroupUnreadable(s, f) && !f.billsRead && f.groupWrite.None? ==>
              && r.after.group ==
                 s.group.(categories := RemainingCategories(s.group.categories, categoryId))
              && |r.after.bills| == |s.bills|
              && (forall i :: 0 <= i < |s.bills| && !ReferencesCategory(s.bills[i], categoryId) ==>
                    r.after.bills[i] == s.bills[i])
              && (forall i :: 0 <= i < |s.bills| && s.bills[i].id in f.failedBillUpdates ==>
                    r.after.bills[i] == s.bills[i])
              && (forall i :: (0 <= i < |s.bills| && ReferencesCategory(s.bills[i], categoryId)
                                && s.bills[i].id !in f.failedBillUpdates) ==>
                    r.after.bills[i] == StripCategory(s.bills[i], categoryId))
  {
    if GroupUnreadable(s, f) || f.billsRead then Step(Err(CannotDeleteCategory), s)
    else if f.groupWrite.Some? then Step(Err(Remote(f.groupWrite.value)), s)
    else
      var group := s.group.(categories := RemainingCategories(s.group.categories, categoryId));
      var bills :=
        seq(|s.bills|, i requires 0 <= i < |s.bills| => CascadeBill(s.bills[i], f, categoryId));
      var result :=
        if CascadeFailed(s.bills, f, categoryId) then Err(RelatedBillsNotUpdated) else Ok(());
      Step(result, Store(group, bills))
  }

  /** The category id names one of the categories. */
  predicate IdResolves(id: CategoryId, categories: seq<Category>) {
    exists j :: 0 <= j < |categories| && categories[j].id == id
  }

  /** Every id in the list names one of the categories. */
  ghost predicate IdsResolve(ids: seq<CategoryId>, categories: seq<Category>) {
    forall k :: 0 <= k < |ids| ==> IdResolves(ids[k], categories)
  }

  /** Every category id a bill holds names a category of the group. */
  ghost predicate CategoryRefsResolve(s: Store) {
    forall i :: 0 <= i < |s.bills| ==> IdsResolve(s.bills[i].categoryIds, s.group.categories)
  }

  /** An id other than the deleted one still names a remaining category. */
  lemma IdResolvesAfterDelete(id: CategoryId, categories: seq<Category>, categoryId: CategoryId)
    requires IdResolves(id, categories) && id != categoryId
    ensures IdResolves(id, RemainingCategories(categories, categoryId))
  {
    var j :| 0 <= j < |categories| && categories[j].id == id;
    var remaining := RemainingCategories(categories, categoryId);
    assert categories[j] in remaining;
    var k :| 0 <= k < |remaining| && remaining[k] == categories[j];
  }

  /** A stripped bill's ids all name remaining categories. */
  lemma StripResolves(bill: Bill, categories: seq<Category>, categoryId: CategoryId)
    requires IdsResolve(bill.categoryIds, categories)
    ensures IdsResolve(StripCategory(bill, categoryId).categoryIds,
                       RemainingCategories(categories, categoryId))
  {
    var ids := StripCategory(bill, categoryId).categoryIds;
    forall k | 0 <= k < |ids|
      ensures IdResolves(ids[k], RemainingCategories(categories, categoryId))
    {
      var k0 :| 0 <= k0 < |bill.categoryIds| && bill.categoryIds[k0] == ids[k];
      IdResolvesAfterDelete(ids[k], categories, categoryId);
    }
  }

  /** A fully successful deleteCategory leaves no trace of the category and no bill
      pointing at a missing category. */
  lemma DeleteCategoryCascades(s: Store, f: Faults, categoryId: CategoryId)
    requires UniqueBillIds(s) && CategoryRefsResolve(s)
    requires DeleteCategoryOp(s, f, categoryId).result.Ok?
    ensures var after := DeleteCategoryOp(s, f, categoryId).after;
            && CategoryRefsResolve(after)
            && (forall j :: 0 <= j < |after.group.categories| ==>
                  after.group.categories[j].id != categoryId)
            && (forall i :: 0 <= i < |after.bills| ==> categoryId !in after.bills[i].categoryIds)
  {
    var after := DeleteCategoryOp(s, f, categoryId).after;
    forall i | 0 <= i < |after.bills|
      ensures after.bills[i] == StripCategory(s.bills[i], categoryId)
    {
      if !ReferencesCategory(s.bills[i], categoryId) {
        StripUnreferencedIsNoOp(s.bills[i], categoryId);
      }
    }
    forall i | 0 <= i < |after.bills|
      ensures IdsResolve(after.bills[i].categoryIds, after.group.categories)
    {
      StripResolves(s.bills[i], s.group.categories, categoryId);
    }
  }

  /** A failed bill update is reported, but the category is already gone from the group:
      the operation is not atomic. */
  lemma DeleteCategoryNotRolledBack(s: Store, f: Faults, categoryId: CategoryId)
    requires UniqueBillIds(s)
    requires !GroupUnreadable(s, f) && !f.billsRead && f.groupWrite.None?
    requires CascadeFailed(s.bills, f, categoryId)
    ensures DeleteCategoryOp(s, f, categoryId).result == Err(RelatedBillsNotUpdated)
    ensures var cats := DeleteCategoryOp(s, f, categoryId).after.group.categories;
            forall j :: 0 <= j < |cats| ==> cats[j].id != categoryId
    ensures exists i :: 0 <= i < |s.bills|
                        && DeleteCategoryOp(s, f, categoryId).after.bills[i] == s.bills[i]
                        && ReferencesCategory(s.bills[i], categoryId)
  {
  }

  /** Deleting category A from a live group with categories [A, B] and two bills referencing
      [A, B] and [A] leaves the group with [B] and the bills with [B] and []. */
  lemma DeleteCategoryExample(g: Group, b1: Bill, b2: Bill)
    requires !g.deleted
    requires g.categories == [Category("A", "Food"), Category("B", "Travel")]
    requires b1.id != b2.id
    requires b1.categoryIds == ["A", "B"] && b2.categoryIds == ["A"]
    ensures var r := DeleteCategoryOp(Store(g, [b1, b2]), NoFaults, "A");
            && r.result == Ok(())
            && r.after.group.categories == [Category("B", "Travel")]
            && r.after.bills[0].categoryIds == ["B"]
            && r.after.bills[1].categoryIds == []
  {
    var r := DeleteCategoryOp(Store(g, [b1, b2]), NoFaults, "A");
    assert "A" in b1.categoryIds && "A" in b2.categoryIds;
    assert Category("A", "Food").id != Category("B", "Travel").id;
    assert "A" != "B";
    assert r.after.bills[0] == StripCategory(b1, "A");
    assert r.after.bills[1] == StripCategory(b2, "A");
    assert !OtherId("A")("A") && OtherId("A")("B");
    assert Seqs.Filter(["B"], OtherId("A")) == ["B"];
    assert Seqs.Filter(["A", "B"], OtherId("A")) == ["B"] by {
      assert ["A", "B"][1..] == ["B"];
    }
    var cs := [Category("A", "Food"), Category("B", "Travel")];
    assert !OtherCategory("A")(cs[0]) && OtherCategory("A")(cs[1]);
    assert Seqs.Filter(cs[1..], OtherCategory("A")) == [cs[1]];
  }
}

=== FILE: categories.dfy ===
/** The pure part of deleteCategory: dropping a category from the group and stripping
    its id from the bills that reference it. */
module Categories {
  import opened Entities
  import Seqs

  /** The filter predicate keeping every category but `categoryId`. */
  function OtherCategory(categoryId: CategoryId): Category -> bool {
    (c: Category) => c.id != categoryId
  }

  /** The filter predicate keeping every category id but `categoryId`. */
  function OtherId(categoryId: CategoryId): CategoryId -> bool {
    (id: CategoryId) => id != categoryId
  }

  /** The group's new category list: every entry with this id removed. */
  function RemainingCategories(
    categories: seq<Category>, categoryId: CategoryId): (r: seq<Category>)
    ensures |r| <= |categories|
    ensures forall i :: 0 <= i < |r| ==> r[i] in categories && r[i].id != categoryId
    ensures forall i :: 0 <= i < |categories| && categories[i].id != categoryId ==>
              categories[i] in r
  {
    Seqs.Filter(categories, OtherCategory(categoryId))
  }

  /** The bill holds a reference to the category. */
  predicate ReferencesCategory(bill: Bill, categoryId: CategoryId) {
    categoryId in bill.categoryIds
  }

  /** The bill with the category's id filtered out of its category list. */
  function StripCategory(bill: Bill, categoryId: CategoryId): (r: Bill)
    ensures categoryId !in r.categoryIds
    ensures forall i :: 0 <= i < |bill.categoryIds| && bill.categoryIds[i] != categoryId ==>
              bill.categoryIds[i] in r.categoryIds
    ensures forall i :: 0 <= i < |r.categoryIds| ==> r.categoryIds[i] in bill.categoryIds
    ensures r == bill.(categoryIds := r.categoryIds)
  {
    bill.(categoryIds := Seqs.Filter(bill.categoryIds, OtherId(categoryId)))
  }

  /** A bill that does not reference the category is left exactly as it was. */
  lemma StripUnreferencedIsNoOp(bill: Bill, categoryId: CategoryId)
    requires !ReferencesCategory(bill, categoryId)
    ensures StripCategory(bill, categoryId) == bill
  {
    Seqs.FilterKeepsAll(bill.categoryIds, OtherId(categoryId));
  }

  /** Stripping keeps the other category ids in their order. */
  lemma StripKeepsOrder(a: seq<CategoryId>, b: seq<CategoryId>, bill: Bill, categoryId: CategoryId)
    requires bill.categoryIds == a + b
    ensures StripCategory(bill, categoryId).categoryIds
         == StripCategory(bill.(categoryIds := a), categoryId).categoryIds
          + StripCategory(bill.(categoryIds := b), categoryId).categoryIds
  {
    Seqs.FilterConcat(a, b, OtherId(categoryId));
  }

  /** Removing from the category list keeps the other categories in their order. */
  lemma RemainingKeepsOrder(a: seq<Category>, b: seq<Category>, categoryId: CategoryId)
    ensures RemainingCategories(a + b, categoryId)
         == RemainingCategories(a, categoryId) + RemainingCategories(b, categoryId)
  {
    Seqs.FilterConcat(a, b, OtherCategory(categoryId));
  }

  /** Removing a category nobody has leaves the list unchanged. */
  lemma RemainingAbsentIsNoOp(categories: seq<Category>, categoryId: CategoryId)
    requires forall i :: 0 <= i < |categories| ==> categories[i].id != categoryId
    ensures RemainingCategories(categories, categoryId) == categories
  {
    Seqs.FilterKeepsAll(categories, OtherCategory(categoryId));
  }

  /** Exactly the entries with the deleted id leave the category list. */
  lemma RemainingDropsExactlyMatches(categories: seq<Category>, categoryId: CategoryId)
    ensures var dropped := Seqs.Filter(categories, (c: Category) => c.id == categoryId);
            multiset(RemainingCategories(categories, categoryId)) + multiset(dropped)
            == multiset(categories)
  {
    Seqs.FilterPartition(
      categories, OtherCategory(categoryId), (c: Category) => c.id == categoryId);
  }

  /** Exactly the occurrences of the deleted id leave the bill's category list. */
  lemma StripDropsExactlyMatches(bill: Bill, categoryId: CategoryId)
    ensures var dropped := Seqs.Filter(bill.categoryIds, (id: CategoryId) => id == categoryId);
            multiset(StripCategory(bill, categoryId).categoryIds) + multiset(dropped)
            == multiset(bill.categoryIds)
  {
    Seqs.FilterPartition(
      bill.categoryIds, OtherId(categoryId), (id: CategoryId) => id == categoryId);
  }
}

=== FILE: entities.dfy ===
/** The records the client reads and writes. Only the fields the client's own logic
    looks at are modelled, plus a few carried along unchanged. */
module Entities {

  type GroupId = string
  type MemberId = string
  type BillId = string
  type CategoryId = string

  /** What each member owes on a bill, keyed by member id. */
  type Shares = map<MemberId, real>

  datatype Member = Member(id: MemberId, name: string, isAccounting: bool)

  datatype Category = Category(id: CategoryId, name: string)

  datatype Bill = Bill(
    id: BillId,
    groupId: GroupId,
    name: string,
    amount: real,
    members: Shares,
    categoryIds: seq<CategoryId>,
    createdBy: MemberId,
    createdAt: string)

  datatype Group = Group(
    id: GroupId,
    name: string,
    paymentTrackingMode: string,
    members: seq<Member>,
    categories: seq<Category>,
    deleted: bool,
    updatedAt: string)

  /** JavaScript truthiness of `bill.members[memberId]`: the key is present and the share
      is not 0. */
  predicate HasShare(bill: Bill, memberId: MemberId) {
    memberId in bill.members && bill.members[memberId] != 0.0
  }
}

=== FILE: fetch_groups.dfy ===
/** fetchGroups: every id is fetched on its own; found groups are collected and sorted by
    id, failures whose message says the view "does not exist" are reported as not found,
    and every other failure is dropped. The concurrent arrival order is fixed to the input
    order, and the locale-aware id comparison is an abstract total preorder `le`. */
module FetchGroups {
  import opened Results
  import opened Entities
  import Seqs

  /** What fetchGroup did for one id. */
  datatype Fetched = Found(group: Group) | Failed(message: Option<string>)

  /** What fetchGroups returns. */
  datatype Listing = Listing(groups: seq<Group>, notFoundIds: seq<GroupId>)

  const NotFoundMarker: string := "does not exist"

  /** The failure is classified as "not found": its message mentions the marker. */
  predicate IsNotFound(f: Fetched) {
    f.Failed? && f.message.Some? && Seqs.Contains(f.message.value, NotFoundMarker)
  }

  /** The failure is neither a group nor "not found": it is silently dropped. */
  predicate IsDropped(f: Fetched) {
    f.Failed? && !IsNotFound(f)
  }

  ghost predicate TotalPreorder(le: (GroupId, GroupId) -> bool) {
    && (forall a, b :: le(a, b) || le(b, a))
    && (forall a, b, c :: le(a, b) && le(b, c) ==> le(a, c))
  }

  ghost predicate SortedById(groups: seq<Group>, le: (GroupId, GroupId) -> bool) {
    forall i, j :: 0 <= i < j < |groups| ==> le(groups[i].id, groups[j].id)
  }

  /** Every group in `s` has an id `id` comes before or ties with. */
  ghost predicate Below(id: GroupId, s: seq<Group>, le: (GroupId, GroupId) -> bool) {
    forall i :: 0 <= i < |s| ==> le(id, s[i].id)
  }

  lemma SortedTail(s: seq<Group>, le: (GroupId, GroupId) -> bool)
    requires |s| > 0 && SortedById(s, le)
    ensures SortedById(s[1..], le) && Below(s[0].id, s[1..], le)
  {
  }

  lemma SortedCons(g: Group, s: seq<Group>, le: (GroupId, GroupId) -> bool)
    requires SortedById(s, le) && Below(g.id, s, le)
    ensures SortedById([g] + s, le)
  {
  }

  /** A bound on a sorted list's head bounds the whole list. */
  lemma BelowHead(id: GroupId, s: seq<Group>, le: (GroupId, GroupId) -> bool)
    requires TotalPreorder(le)
    requires |s| > 0 && SortedById(s, le) && le(id, s[0].id)
    ensures Below(id, s, le)
  {
  }

  /** A bound survives adding one more bounded element and reordering. */
  lemma BelowPermutation(
    id: GroupId, g: Group, s: seq<Group>, t: seq<Group>, le: (GroupId, GroupId) -> bool)
    requires Below(id, t, le) && le(id, g.id)
    requires multiset(s) == multiset(t) + multiset{g}
    ensures Below(id, s, le)
  {
    forall i | 0 <= i < |s|
      ensures le(id, s[i].id)
    {
      assert s[i] in multiset(s);
      if s[i] != g {
        assert s[i] in multiset(t);
        var k :| 0 <= k < |t| && t[k] == s[i];
      }
    }
  }

  /** Places `g` in front of the first group it does not come after. */
  function Insert(g: Group, sorted: seq<Group>, le: (GroupId, GroupId) -> bool): (r: seq<Group>)
    requires TotalPreorder(le)
    requires SortedById(sorted, le)
    ensures SortedById(r, le)
    ensures multiset(r) == multiset(sorted) + multiset{g}
  {
    if |sorted| == 0 then [g]
    else if le(g.id, sorted[0].id) then
      BelowHead(g.id, sorted, le);
      SortedCons(g, sorted, le);
      [g] + sorted
    else
      assert le(sorted[0].id, g.id);
      SortedTail(sorted, le);
      var rest := Insert(g, sorted[1..], le);
      BelowPermutation(sorted[0].id, g, rest, sorted[1..], le);
      SortedCons(sorted[0], rest, le);
      assert sorted == [sorted[0]] + sorted[1..];
      [sorted[0]] + rest
  }

  /** `groups.sort((a, b) => a.id.localeCompare(b.id))`, as an insertion sort. */
  function SortById(groups: seq<Group>, le: (GroupId, GroupId) -> bool): (r: seq<Group>)
    requires TotalPreorder(le)
    ensures SortedById(r, le)
    ensures multiset(r) == multiset(groups)
  {
    if |groups| == 0 then []
    else
      assert groups == [groups[0]] + groups[1..];
      Insert(groups[0], SortById(groups[1..], le), le)
  }

  /** The settled fetches, in arrival order: each id adds its group, adds itself to the
      not-found list, or adds nothing. */
  function Settle(ids: seq<GroupId>, fetch: GroupId -> Fetched): (r: Listing)
    ensures |r.groups| + |r.notFoundIds| <= |ids|
    ensures forall g :: g in r.groups <==> exists i :: 0 <= i < |ids| && fetch(ids[i]) == Found(g)
    ensures forall id :: id in r.notFoundIds <==> id in ids && IsNotFound(fetch(id))
  {
    if |ids| == 0 then Listing([], [])
    else
      var rest := Settle(ids[1..], fetch);
      assert forall i :: 0 < i < |ids| ==> ids[i] == ids[1..][i - 1];
      assert forall i :: 0 <= i < |ids[1..]| ==> ids[1..][i] == ids[i + 1];
      assert ids == [ids[0]] + ids[1..];
      match fetch(ids[0])
      case Found(g) => Listing([g] + rest.groups, rest.notFoundIds)
      case Failed(_) =>
        if IsNotFound(fetch(ids[0])) then Listing(rest.groups, [ids[0]] + rest.notFoundIds)
        else rest
  }

  /** fetchGroups: the found groups sorted by id, and the ids reported as not found. */
  function FetchGroups(
    ids: seq<GroupId>, fetch: GroupId -> Fetched, le: (GroupId, GroupId) -> bool): (r: Listing)
    requires TotalPreorder(le)
    ensures SortedById(r.groups, le)
    ensures multiset(r.groups) == multiset(Settle(ids, fetch).groups)
    ensures forall g :: g in r.groups <==> exists i :: 0 <= i < |ids| && fetch(ids[i]) == Found(g)
    ensures forall id :: id in r.notFoundIds <==> id in ids && IsNotFound(fetch(id))
    ensures |r.groups| + |r.notFoundIds| <= |ids|
  {
    var settled := Settle(ids, fetch);
    var sorted := SortById(settled.groups, le);
    assert forall g :: g in sorted <==> g in multiset(sorted);
    assert forall g :: g in settled.groups <==> g in multiset(settled.groups);
    Listing(sorted, settled.notFoundIds)
  }

  /** The fetch for the id found a group. */
  function FoundIn(fetch: GroupId -> Fetched): GroupId -> bool {
    (id: GroupId) => fetch(id).Found?
  }

  /** The fetch for the id failed with the "does not exist" marker. */
  function NotFoundIn(fetch: GroupId -> Fetched): GroupId -> bool {
    (id: GroupId) => IsNotFound(fetch(id))
  }

  /** The fetch for the id failed with some other error. */
  function DroppedIn(fetch: GroupId -> Fetched): GroupId -> bool {
    (id: GroupId) => IsDropped(fetch(id))
  }

  /** Each id in `found` fetched the group at the same position of `groups`. */
  ghost predicate FetchedInOrder(
    found: seq<GroupId>, groups: seq<Group>, fetch: GroupId -> Fetched)
  {
    |groups| == |found| && forall k :: 0 <= k < |found| ==> fetch(found[k]) == Found(groups[k])
  }

  lemma FetchedInOrderCons(
    id: GroupId, g: Group, found: seq<GroupId>, groups: seq<Group>, fetch: GroupId -> Fetched)
    requires fetch(id) == Found(g) && FetchedInOrder(found, groups, fetch)
    ensures FetchedInOrder([id] + found, [g] + groups, fetch)
  {
    forall k | 0 < k <= |found|
      ensures fetch(([id] + found)[k]) == Found(([g] + groups)[k])
    {
      assert ([id] + found)[k] == found[k - 1] && ([g] + groups)[k] == groups[k - 1];
    }
  }

  /** The collected groups are, in input order and once per occurrence, the groups fetched
      by the ids whose fetch found one. */
  lemma {:induction false} SettleGroupsFollowIds(ids: seq<GroupId>, fetch: GroupId -> Fetched)
    ensures FetchedInOrder(Seqs.Filter(ids, FoundIn(fetch)), Settle(ids, fetch).groups, fetch)
  {
    if |ids| > 0 {
      SettleGroupsFollowIds(ids[1..], fetch);
      var rest := Seqs.Filter(ids[1..], FoundIn(fetch));
      var restGroups := Settle(ids[1..], fetch).groups;
      if fetch(ids[0]).Found? {
        assert Seqs.Filter(ids, FoundIn(fetch)) == [ids[0]] + rest;
        assert Settle(ids, fetch).groups == [fetch(ids[0]).group] + restGroups;
        FetchedInOrderCons(ids[0], fetch(ids[0]).group, rest, restGroups, fetch);
      } else {
        assert Seqs.Filter(ids, FoundIn(fetch)) == rest;
        assert Settle(ids, fetch).groups == restGroups;
      }
    }
  }

  /** The not-found ids are exactly the ids whose fetch failed with the marker, in input
      order and once per occurrence. */
  lemma {:induction false} SettleNotFoundFollowIds(ids: seq<GroupId>, fetch: GroupId -> Fetched)
    ensures Settle(ids, fetch).notFoundIds == Seqs.Filter(ids, NotFoundIn(fetch))
  {
    if |ids| > 0 {
      SettleNotFoundFollowIds(ids[1..], fetch);
    }
  }

  /** Every id lands in exactly one place: among the groups, among the not-found ids, or
      among the dropped failures, the ids failing with another error. */
  lemma {:induction false} SettleAccountsForEveryId(ids: seq<GroupId>, fetch: GroupId -> Fetched)
    ensures var r := Settle(ids, fetch);
            |r.groups| + |r.notFoundIds| + |Seqs.Filter(ids, DroppedIn(fetch))| == |ids|
  {
    if |ids| > 0 {
      SettleAccountsForEveryId(ids[1..], fetch);
    }
  }

  /** The two lists account for every id but the dropped ones. */
  lemma FetchGroupsLosesOnlyDropped(
    ids: seq<GroupId>, fetch: GroupId -> Fetched, le: (GroupId, GroupId) -> bool)
    requires TotalPreorder(le)
    ensures |FetchGroups(ids, fetch, le).groups| + |FetchGroups(ids, fetch, le).notFoundIds|
            == |ids| - |Seqs.Filter(ids, DroppedIn(fetch))|
  {
    SettleAccountsForEveryId(ids, fetch);
    var settled := Settle(ids, fetch).groups;
    var sorted := FetchGroups(ids, fetch, le).groups;
    assert |sorted| == |multiset(sorted)| == |multiset(settled)| == |settled|;
  }

  /** No id is dropped exactly when no fetch failed with an unrecognised error. */
  lemma NoDropsIff(ids: seq<GroupId>, fetch: GroupId -> Fetched)
    ensures |Seqs.Filter(ids, DroppedIn(fetch))| == 0 <==>
            forall i :: 0 <= i < |ids| ==> !IsDropped(fetch(ids[i]))
  {
    var dropped := Seqs.Filter(ids, DroppedIn(fetch));
    if |dropped| > 0 {
      assert DroppedIn(fetch)(dropped[0]);
      var i :| 0 <= i < |ids| && ids[i] == dropped[0];
    }
  }
}

=== FILE: import_group.dfy ===
/** The pure part of importGroup: the new group's row merges the imported group with the
    new identity, and every imported bill loses its id and group and joins the new group. */
module ImportGroup {
  import opened Entities
  import Amounts

  /** The identity chosen for the imported group. */
  datatype GroupInfo = GroupInfo(id: GroupId, name: string, paymentTrackingMode: string)

  /** A bill row as inserted: no id, which the backend assigns. */
  datatype BillPayload = BillPayload(
    groupId: GroupId,
    name: string,
    amount: real,
    members: Shares,
    categoryIds: seq<CategoryId>,
    createdBy: MemberId,
    createdAt: string)

  /** `{ ...imported.group, ...newGroupInfo }`: the new identity overrides the imported one. */
  function MergeGroup(imported: Group, info: GroupInfo): (r: Group)
    ensures r.id == info.id && r.name == info.name
    ensures r.paymentTrackingMode == info.paymentTrackingMode
    ensures r.members == imported.members && r.categories == imported.categories
    ensures r.deleted == imported.deleted && r.updatedAt == imported.updatedAt
  {
    imported.(id := info.id, name := info.name, paymentTrackingMode := info.paymentTrackingMode)
  }

  /** The payload row with the id the backend gives it. */
  function WithId(p: BillPayload, id: BillId): Bill {
    Bill(id, p.groupId, p.name, p.amount, p.members, p.categoryIds, p.createdBy, p.createdAt)
  }

  /** `{ ...omit(bill, ['id', 'groupId']), groupId: newGroupId }`. */
  function Rehome(bill: Bill, newGroupId: GroupId): (r: BillPayload)
    ensures r.groupId == newGroupId
    ensures WithId(r, bill.id) == bill.(groupId := newGroupId)
  {
    BillPayload(
      newGroupId, bill.name, bill.amount, bill.members, bill.categoryIds,
      bill.createdBy, bill.createdAt)
  }

  /** Every imported bill re-homed to the new group, in order. */
  function RemapBills(bills: seq<Bill>, newGroupId: GroupId): (r: seq<BillPayload>)
    ensures |r| == |bills|
    ensures forall i :: 0 <= i < |r| ==> r[i].groupId == newGroupId
    ensures forall i :: 0 <= i < |r| ==>
              WithId(r[i], bills[i].id) == bills[i].(groupId := newGroupId)
  {
    seq(|bills|, i requires 0 <= i < |bills| => Rehome(bills[i], newGroupId))
  }

  /** The payload does not depend on the bill's old id or old group. */
  lemma RehomeForgetsOrigin(a: Bill, b: Bill, newGroupId: GroupId)
    requires a.(id := b.id, groupId := b.groupId) == b
    ensures Rehome(a, newGroupId) == Rehome(b, newGroupId)
  {
  }

  /** Re-homing keeps the amount check's verdict: bills that passed it before still pass. */
  lemma RemapKeepsAmounts(
    bills: seq<Bill>, newGroupId: GroupId, ids: seq<BillId>, totalOf: Shares -> real)
    requires |ids| == |bills|
    ensures forall i :: 0 <= i < |bills| ==>
              (Amounts.BillAmountValid(WithId(RemapBills(bills, newGroupId)[i], ids[i]), totalOf)
               <==> Amounts.BillAmountValid(bills[i], totalOf))
  {
  }
}

=== FILE: members.dfy ===
/** Member-list edits made by addMember, updateMember and removeMember: each reads the
    group's member list, transforms it, and writes the whole list back. */
module Members {
  import opened Results
  import opened Entities
  import Seqs

  /** Some member already uses `name` (the duplicate check of addMember). */
  predicate NameTaken(members: seq<Member>, name: string) {
    exists i :: 0 <= i < |members| && members[i].name == name
  }

  function DistinctNames(a: Member, b: Member): bool { a.name != b.name }
  function DistinctIds(a: Member, b: Member): bool { a.id != b.id }
  function NotBothAccounting(a: Member, b: Member): bool { !(a.isAccounting && b.isAccounting) }

  /** No two members share a name. */
  ghost predicate UniqueNames(members: seq<Member>) {
    Seqs.Pairwise(members, DistinctNames)
  }

  /** No two members share an id. */
  ghost predicate UniqueIds(members: seq<Member>) {
    Seqs.Pairwise(members, DistinctIds)
  }

  /** At most one member is the group's bookkeeper. */
  ghost predicate AtMostOneAccounting(members: seq<Member>) {
    Seqs.Pairwise(members, NotBothAccounting)
  }

  /** Every member with its bookkeeper flag cleared. */
  function ClearAccounting(members: seq<Member>): (r: seq<Member>)
    ensures |r| == |members|
    ensures forall i :: 0 <= i < |r| ==> r[i] == members[i].(isAccounting := false)
  {
    seq(|members|, i requires 0 <= i < |members| => members[i].(isAccounting := false))
  }

  /** addMember: refuse a name already in use; otherwise append the new member, first
      clearing everyone else's bookkeeper flag when the newcomer carries it. */
  function AddMember(members: seq<Member>, member: Member): (r: Result<seq<Member>>)
    ensures r.Err? <==> NameTaken(members, member.name)
    ensures r.Err? ==> r.error == MemberNameTaken
    ensures r.Ok? ==> |r.value| == |members| + 1 && r.value[|members|] == member
    ensures r.Ok? && !member.isAccounting ==> r.value[..|members|] == members
    ensures r.Ok? && member.isAccounting ==>
              forall i :: 0 <= i < |members| ==> r.value[i] == members[i].(isAccounting := false)
  {
    if NameTaken(members, member.name) then Err(MemberNameTaken)
    else if member.isAccounting then Ok(ClearAccounting(members) + [member])
    else Ok(members + [member])
  }

  /** A successful addMember keeps names unique. */
  lemma AddMemberKeepsNamesUnique(members: seq<Member>, member: Member)
    requires UniqueNames(members)
    requires AddMember(members, member).Ok?
    ensures UniqueNames(AddMember(members, member).value)
  {
  }

  /** A successful addMember keeps at most one bookkeeper; when the newcomer is the
      bookkeeper, it is the only one. */
  lemma AddMemberKeepsOneAccounting(members: seq<Member>, member: Member)
    requires AtMostOneAccounting(members)
    requires AddMember(members, member).Ok?
    ensures AtMostOneAccounting(AddMember(members, member).value)
    ensures member.isAccounting ==>
              forall i :: 0 <= i < |members| + 1 ==>
                (AddMember(members, member).value[i].isAccounting <==> i == |members|)
  {
  }

  /** updateMember: the entries whose id matches are replaced by `newValue`; when
      `newValue` is the bookkeeper, every other entry loses the flag. */
  function UpdateMember(members: seq<Member>, newValue: Member): (r: seq<Member>)
    ensures |r| == |members|
    ensures forall i :: 0 <= i < |r| && members[i].id == newValue.id ==> r[i] == newValue
    ensures forall i :: 0 <= i < |r| && members[i].id != newValue.id ==>
              r[i] ==
                if newValue.isAccounting then members[i].(isAccounting := false) else members[i]
  {
    seq(|members|, i requires 0 <= i < |members| =>
      if members[i].id == newValue.id then newValue
      else if newValue.isAccounting then members[i].(isAccounting := false)
      else members[i])
  }

  /** updateMember never changes which ids the list holds, or where. */
  lemma UpdateMemberKeepsIds(members: seq<Member>, newValue: Member)
    ensures forall i :: 0 <= i < |members| ==>
              UpdateMember(members, newValue)[i].id == members[i].id
  {
  }

  /** With unique ids, updateMember keeps at most one bookkeeper. */
  lemma UpdateMemberKeepsOneAccounting(members: seq<Member>, newValue: Member)
    requires UniqueIds(members)
    requires AtMostOneAccounting(members)
    ensures AtMostOneAccounting(UpdateMember(members, newValue))
  {
  }

  /** Making a present member the bookkeeper leaves exactly that member flagged,
      provided ids are unique. */
  lemma UpdateMemberMakesSoleAccounting(members: seq<Member>, newValue: Member, k: nat)
    requires UniqueIds(members)
    requires k < |members| && members[k].id == newValue.id
    requires newValue.isAccounting
    ensures forall i :: 0 <= i < |members| ==>
              (UpdateMember(members, newValue)[i].isAccounting <==> i == k)
  {
  }

  /** Flagging a member whose id is not in the list clears every flag and adds no one:
      the group is left without a bookkeeper. */
  lemma UpdateAbsentMemberClearsAccounting(members: seq<Member>, newValue: Member)
    requires forall i :: 0 <= i < |members| ==> members[i].id != newValue.id
    requires newValue.isAccounting
    ensures UpdateMember(members, newValue) == ClearAccounting(members)
  {
  }

  /** Without unique ids the at-most-one rule fails: both entries sharing the flagged id
      become the bookkeeper. */
  lemma UpdateDuplicateIdsFlagsTwo()
    ensures var before := [Member("a", "Ann", false), Member("a", "Bob", false)];
            && AtMostOneAccounting(before)
            && !AtMostOneAccounting(UpdateMember(before, Member("a", "Ann", true)))
  {
    var before := [Member("a", "Ann", false), Member("a", "Bob", false)];
    var after := UpdateMember(before, Member("a", "Ann", true));
    assert !NotBothAccounting(after[0], after[1]);
  }

  /** Writing back a member's current value changes nothing when the list is consistent. */
  lemma UpdateWithSameValueIsNoOp(members: seq<Member>, k: nat)
    requires UniqueIds(members) && AtMostOneAccounting(members)
    requires k < |members|
    ensures UpdateMember(members, members[k]) == members
  {
  }

  /** Applying the same update twice is the same as applying it once. */
  lemma UpdateMemberIdempotent(members: seq<Member>, newValue: Member)
    ensures UpdateMember(UpdateMember(members, newValue), newValue)
            == UpdateMember(members, newValue)
  {
  }

  /** updateMember does not repeat addMember's duplicate-name check: a rename can give two
      members the same name. */
  lemma UpdateMemberMayDuplicateNames()
    ensures var before := [Member("a", "Ann", false), Member("b", "Bob", false)];
            UniqueNames(before) && !UniqueNames(UpdateMember(before, Member("b", "Ann", false)))
  {
    var before := [Member("a", "Ann", false), Member("b", "Bob", false)];
    var after := UpdateMember(before, Member("b", "Ann", false));
    assert after[0] == before[0] && after[1] == Member("b", "Ann", false);
    assert !DistinctNames(after[0], after[1]);
  }

  /** The bill refers to the member: as its creator, or through a truthy share. */
  predicate ReferencedBy(bill: Bill, memberId: MemberId) {
    bill.createdBy == memberId || HasShare(bill, memberId)
  }

  /** Some bill refers to the member. */
  predicate Referenced(bills: seq<Bill>, memberId: MemberId) {
    exists i :: 0 <= i < |bills| && ReferencedBy(bills[i], memberId)
  }

  /** The filter predicate keeping every member but `memberId`. */
  function Other(memberId: MemberId): Member -> bool {
    (m: Member) => m.id != memberId
  }

  /** The predicate selecting the entries with id `memberId`. */
  function Same(memberId: MemberId): Member -> bool {
    (m: Member) => m.id == memberId
  }

  /** removeMember: refuse while some bill refers to the member; otherwise drop every entry
      with that id. */
  function RemoveMember(
    members: seq<Member>, bills: seq<Bill>, memberId: MemberId): (r: Result<seq<Member>>)
    ensures r.Err? <==> Referenced(bills, memberId)
    ensures r.Err? ==> r.error == MemberStillReferenced
    ensures r.Ok? ==> |r.value| <= |members|
    ensures r.Ok? ==>
              forall i :: 0 <= i < |r.value| ==> r.value[i] in members && r.value[i].id != memberId
    ensures r.Ok? ==>
              forall i :: 0 <= i < |members| && members[i].id != memberId ==> members[i] in r.value
  {
    if Referenced(bills, memberId) then Err(MemberStillReferenced)
    else Ok(Seqs.Filter(members, Other(memberId)))
  }

  /** A share of 0 is falsy and does not block removal. */
  lemma ZeroShareDoesNotBlockRemoval(members: seq<Member>, bill: Bill, memberId: MemberId)
    requires bill.createdBy != memberId
    requires memberId in bill.members && bill.members[memberId] == 0.0
    ensures RemoveMember(members, [bill], memberId).Ok?
  {
  }

  /** Removal keeps the other members in their order: removing from a concatenation
      removes from each part. */
  lemma RemoveMemberKeepsOrder(a: seq<Member>, b: seq<Member>, bills: seq<Bill>, memberId: MemberId)
    requires !Referenced(bills, memberId)
    ensures RemoveMember(a + b, bills, memberId).value
         == RemoveMember(a, bills, memberId).value + RemoveMember(b, bills, memberId).value
  {
    Seqs.FilterConcat(a, b, Other(memberId));
  }

  /** Removing an id nobody has changes nothing. */
  lemma RemoveAbsentMember(members: seq<Member>, bills: seq<Bill>, memberId: MemberId)
    requires !Referenced(bills, memberId)
    requires forall i :: 0 <= i < |members| ==> members[i].id != memberId
    ensures RemoveMember(members, bills, memberId) == Ok(members)
  {
    Seqs.FilterKeepsAll(members, Other(memberId));
  }

  /** Exactly the entries with the removed id are gone: they and the result together make
      up the old list. */
  lemma RemoveMemberDropsExactlyMatches(members: seq<Member>, bills: seq<Bill>, memberId: MemberId)
    requires !Referenced(bills, memberId)
    ensures multiset(RemoveMember(members, bills, memberId).value)
            + multiset(Seqs.Filter(members, Same(memberId)))
            == multiset(members)
  {
    Seqs.FilterPartition(members, Other(memberId), Same(memberId));
  }

  /** Removal keeps every invariant of the member list. */
  lemma RemoveMemberKeepsInvariants(members: seq<Member>, bills: seq<Bill>, memberId: MemberId)
    requires !Referenced(bills, memberId)
    ensures UniqueNames(members) ==> UniqueNames(RemoveMember(members, bills, memberId).value)
    ensures UniqueIds(members) ==> UniqueIds(RemoveMember(members, bills, memberId).value)
    ensures AtMostOneAccounting(members) ==>
              AtMostOneAccounting(RemoveMember(members, bills, memberId).value)
  {
    if UniqueNames(members) {
      Seqs.FilterPairwise(members, Other(memberId), DistinctNames);
    }
    if UniqueIds(members) {
      Seqs.FilterPairwise(members, Other(memberId), DistinctIds);
    }
    if AtMostOneAccounting(members) {
      Seqs.FilterPairwise(members, Other(memberId), NotBothAccounting);
    }
  }
}

=== FILE: results.dfy ===
/** Failure-carrying datatypes shared by the whole model. */
module Results {

  /** An optional value: a field or property that may be absent. */
  datatype Option<+T> = None | Some(value: T) {
    /** The value, or `default` when absent (JavaScript's `x || default` on objects). */
    function GetOr(default: T): T {
      match this
      case Some(v) => v
      case None => default
    }
  }

  /** The errors the data-access layer throws to its callers. */
  datatype ApiError =
    | CannotJoinGroup         // addMember could not read the group
    | MemberNameTaken         // addMember: another member already has this name
    | CannotRemoveMember      // removeMember could not read the group or its bills
    | MemberStillReferenced   // removeMember: some bill was created by or is shared with the member
    | CannotUpdateMember      // updateMember could not read the group
    | AmountMismatch          // isAmountValid: the total does not match the members' shares
    | CannotDeleteCategory    // deleteCategory could not read the group or its bills
    | RelatedBillsNotUpdated  // deleteCategory: one of the cascading bill updates failed
    | Remote(message: string) // a backend error, propagated as it came

  /** Either the value an operation produced or the error it threw. */
  datatype Result<+T> = Ok(value: T) | Err(error: ApiError)
}

=== FILE: seqs.dfy ===
/** Sequence helpers: the array `filter` and string `includes` the client uses, and the
    facts about them the rest of the model needs. */
module Seqs {

  /** The elements of `s` that satisfy `keep`, in their original order
      (`Array.prototype.filter`). */
  function Filter<T>(s: seq<T>, keep: T -> bool): (r: seq<T>)
    ensures |r| <= |s|
    ensures forall i :: 0 <= i < |r| ==> r[i] in s && keep(r[i])
    ensures forall i :: 0 <= i < |s| && keep(s[i]) ==> s[i] in r
  {
    if |s| == 0 then []
    else if keep(s[0]) then [s[0]] + Filter(s[1..], keep)
    else Filter(s[1..], keep)
  }

  /** `rel` holds of every pair of elements taken in order. */
  ghost predicate Pairwise<T>(s: seq<T>, rel: (T, T) -> bool) {
    forall i, j :: 0 <= i < j < |s| ==> rel(s[i], s[j])
  }

  /** Filtering a concatenation filters each part: the kept elements keep their relative order. */
  lemma {:induction false} FilterConcat<T>(a: seq<T>, b: seq<T>, keep: T -> bool)
    ensures Filter(a + b, keep) == Filter(a, keep) + Filter(b, keep)
  {
    if |a| == 0 {
      assert a + b == b;
    } else {
      assert (a + b)[1..] == a[1..] + b;
      FilterConcat(a[1..], b, keep);
    }
  }

  /** When every element is kept, nothing changes. */
  lemma {:induction false} FilterKeepsAll<T>(s: seq<T>, keep: T -> bool)
    requires forall i :: 0 <= i < |s| ==> keep(s[i])
    ensures Filter(s, keep) == s
  {
    if |s| > 0 {
      FilterKeepsAll(s[1..], keep);
    }
  }

  /** Splitting `s` by `keep` and by its negation accounts for every element exactly once:
      the filter removes exactly the rejected entries. */
  lemma {:induction false} FilterPartition<T>(s: seq<T>, keep: T -> bool, drop: T -> bool)
    requires forall x :: drop(x) == !keep(x)
    ensures multiset(Filter(s, keep)) + multiset(Filter(s, drop)) == multiset(s)
  {
    if |s| > 0 {
      FilterPartition(s[1..], keep, drop);
      assert s == [s[0]] + s[1..];
    }
  }

  /** Dropping the first element keeps a pairwise relation. */
  lemma PairwiseTail<T>(s: seq<T>, rel: (T, T) -> bool)
    requires |s| > 0 && Pairwise(s, rel)
    ensures Pairwise(s[1..], rel)
  {
    var tail := s[1..];
    forall i, j | 0 <= i < j < |tail|
      ensures rel(tail[i], tail[j])
    {
      assert tail[i] == s[i + 1] && tail[j] == s[j + 1];
    }
  }

  /** Putting `x` in front keeps a pairwise relation when `x` relates to every element. */
  lemma PairwiseCons<T>(x: T, s: seq<T>, rel: (T, T) -> bool)
    requires Pairwise(s, rel)
    requires forall j :: 0 <= j < |s| ==> rel(x, s[j])
    ensures Pairwise([x] + s, rel)
  {
    var r := [x] + s;
    forall i, j | 0 <= i < j < |r|
      ensures rel(r[i], r[j])
    {
      assert r[j] == s[j - 1];
      if i > 0 {
        assert r[i] == s[i - 1];
      }
    }
  }

  /** Any relation that held of every ordered pair still holds after filtering. */
  lemma {:induction false} FilterPairwise<T>(s: seq<T>, keep: T -> bool, rel: (T, T) -> bool)
    requires Pairwise(s, rel)
    ensures Pairwise(Filter(s, keep), rel)
  {
    if |s| > 0 {
      var tail := s[1..];
      PairwiseTail(s, rel);
      FilterPairwise(tail, keep, rel);
      if keep(s[0]) {
        var rest := Filter(tail, keep);
        forall j | 0 <= j < |rest|
          ensures rel(s[0], rest[j])
        {
          var k :| 0 <= k < |tail| && tail[k] == rest[j];
          assert s[k + 1] == rest[j];
        }
        PairwiseCons(s[0], rest, rel);
      }
    }
  }

  /** `prefix` occurs at the start of `s`. */
  predicate StartsWith(s: string, prefix: string) {
    |prefix| <= |s| && s[..|prefix|] == prefix
  }

  /** `sub` occurs somewhere in `s` (`String.prototype.includes`). */
  predicate Contains(s: string, sub: string)
    decreases |s|
  {
    StartsWith(s, sub) || (|s| > 0 && Contains(s[1..], sub))
  }

  /** `Contains` finds `sub` wherever it sits. */
  lemma {:induction false} ContainsInfix(a: string, sub: string, b: string)
    ensures Contains(a + sub + b, sub)
  {
    if |a| == 0 {
      assert a + sub + b == sub + b;
      assert (sub + b)[..|sub|] == sub;
    } else {
      assert (a + sub + b)[1..] == a[1..] + sub + b;
      ContainsInfix(a[1..], sub, b);
    }
  }
}

=== FILE: views.dfy ===
/** Names of the per-group views every group's rows are read from and written to. */
module Views {
  import opened Entities
  import Seqs

  const GroupViewPrefix: string := "group_"
  const BillViewPrefix: string := "bill_"

  /** The view holding the group's own row. */
  function GroupView(groupId: GroupId): (r: string)
    ensures Seqs.StartsWith(r, GroupViewPrefix)
    ensures r[|GroupViewPrefix|..] == groupId
  {
    GroupViewPrefix + groupId
  }

  /** The view holding the group's bills. */
  function BillView(groupId: GroupId): (r: string)
    ensures Seqs.StartsWith(r, BillViewPrefix)
    ensures r[|BillViewPrefix|..] == groupId
  {
    BillViewPrefix + groupId
  }

  /** Distinct groups never share a group view. */
  lemma GroupViewInjective(a: GroupId, b: GroupId)
    ensures GroupView(a) == GroupView(b) <==> a == b
  {
  }

  /** Distinct groups never share a bill view. */
  lemma BillViewInjective(a: GroupId, b: GroupId)
    ensures BillView(a) == BillView(b) <==> a == b
  {
  }

  /** No group view is ever the bill view of any group. */
  lemma ViewsDisjoint(a: GroupId, b: GroupId)
    ensures GroupView(a) != BillView(b)
  {
    assert GroupView(a)[0] == 'g';
    assert BillView(b)[0] == 'b';
  }
}
